=== FILE: README.md ===
# character-stream, modelled in Dafny

A model of the core of the `character-stream` Rust crate: a decoder that reads
a byte source one UTF-8 character at a time, the peek buffer built on it in
two disciplines (a single cached slot, and a queue with a replay cursor), and
the iterator that retries interrupted reads a bounded number of times.

Everything is immutable data and pure step functions:

- `wrappers.dfy` — `Option`.
- `error.dfy` (module `Errors`) — `CharacterError` as `NoBytesRead | IoError(bytes, kind) | Other(bytes, cause)`. The I/O error and the free-form error payloads become the tags `ErrorKind` and `Cause`.
- `utf8.dfy` (module `Utf8`) — the byte-level rules the decoder relies on:
  - the well-formed UTF-8 syntax of section 4 of RFC 3629 (`WellFormedPrefix`, `WellFormedChar`);
  - the bit layout of section 3 (`Encode`, `DecodeChar`);
  - strict conversion (`String::from_utf8`, modelled as `DecodeStrict`);
  - lossy conversion (`String::from_utf8_lossy`, modelled as `DecodeLossy`). Lossy conversion substitutes one U+FFFD per maximal subpart, the practice of section 3.9 of the Unicode Standard.
- `character_stream.dfy` (module `CharacterStream`) — the byte source, the leading-byte classifier, `read_bytes`, `read_byte` and `read_char`.
  - The byte source is the sequence of outcomes its one-byte reads produce: `Byte(b)`, `End` (a read that returned no bytes) or `Fail(kind)`.
  - An `End` may be followed by more input, as `std::io::Read` allows. Past the last outcome the end is final.
  - Every read reports how many outcomes it `used`, which stands for the read position.
- `peekable.dfy` (module `Peekable`) — `PeekableCharacterStream` as two records:
  - `SinglePeekStream` is the `Peek` marker discipline;
  - `MultiPeekStream` is the `MultiPeek` marker discipline.
- `character_iter.dfy` (module `CharacterIter`) — `CharacterIterator::next`, whose source yields per read either a decoder result (`Inner`) or an I/O error kind (`IoErr`). Past its last step the source reports an unexpected end of file.

Behaviour of the code worth knowing. The model follows the code except where "## Left out" says otherwise. Only two of these points have a doc comment to compare against, and the code departs from both:

- The doc comment on the retry bound calls 5 the number of interrupted errors "before the iterator gives up" (src/character_iter.rs:7). The code compares with `<=`, so `next` gives up on the seventh consecutive interrupted read, not the sixth (`CharacterIter.InterruptStorm`).
- The doc comments on lossy mode say invalid byte sequences become U+FFFD (src/character_stream.rs:40-45, src/character_stream.rs:141-142). An ill-formed announced sequence instead converts to several characters and is reported as `Other` (`CharacterStream.LossyCanFail`).

The other points are undocumented behaviour:

- The iterator has no terminal state. After `next` returns `None`, the next call reads again (`CharacterIter.NoTerminalState`).
- A decoder result of `NoBytesRead` reaches the iterator as an `Inner` result, so it is yielded like any other result rather than ending the iteration.
- When reading continuation bytes fails, the error carries only the continuation bytes. The leading byte is dropped, whether the read runs short, meets an end or fails with an I/O error (`CharacterStream.CutShortSequence`, `CharacterStream.LeadingByteAtEnd`, `CharacterStream.IoErrorInSequence`).

## Model

| member | source | states |
|---|---|---|
| Utf8.DecodeChar | src/character_stream.rs:156-157 | the scalar value decoded from a well-formed UTF-8 character re-encodes to exactly those bytes |
| Utf8.NextChunk | src/character_stream.rs:153-154 | the unit of lossy conversion at the front of the input: either a well-formed character equal to the encoding of the character returned, or a maximal subpart that is the longest prefix able to begin a well-formed character (one byte if none can), never longer than four bytes |
| Utf8.EncodeStringAppend | src/character_stream.rs:156-157 | encoding a text is encoding its characters one after another: the encoding of a concatenation is the concatenation of the encodings |
| Utf8.DecodeStrict | src/character_stream.rs:156-164 | strict conversion succeeds only on the encoding of the text it returns |
| Utf8.DecodeStrictEncode | src/character_stream.rs:156-164 | strict conversion accepts the encoding of every text and gives that text back; with `DecodeStrict` this is an if-and-only-if |
| Utf8.DecodeLossy | src/character_stream.rs:153-154 | lossy conversion yields no more characters than bytes and at least one for non-empty input |
| Utf8.LossyOfEncoding | src/character_stream.rs:153-154 | lossy conversion gives an encoded text back unchanged whatever follows it, and then converts what follows |
| Utf8.LossyMarksIllFormed | src/character_stream.rs:153-157 | input that strict conversion refuses holds at least one U+FFFD once converted lossily |
| Utf8.LossyExtendsStrict | src/character_stream.rs:153-157 | on well-formed input, lossy and strict conversion give the same text |
| Utf8.SingleCharacter | src/character_stream.rs:153-167 | one well-formed character converts to exactly that one character, strictly or lossily |
| Utf8.LossyE2AB | src/character_stream.rs:153-154 | E2 41 42 converts lossily to U+FFFD, 'A', 'B': the maximal subpart is E2 alone |
| CharacterStream.RemainingByteCount | src/character_stream.rs:48-66 | 0, 1, 2 and 3 continuation bytes exactly for leading bytes 00-7F, C0-DF, E0-EF and F0-F7; none exactly for 80-BF and F8-FF; never more than 3 |
| CharacterStream.ClassifierAgainstRfc | src/character_stream.rs:48-66 | the classifier announces the RFC 3629 length for every byte that can start a well-formed sequence, and accepts exactly five bytes that cannot: C0, C1, F5, F6, F7 |
| CharacterStream.Pulled | src/character_stream.rs:100-101 | the reading loop takes at most `amount` bytes, passes over I/O errors, and stops only after the amount-th byte, at an end, or when the source runs dry |
| CharacterStream.ReadRunsDry | src/character_stream.rs:100-101 | asked for at least as many bytes as a finished source holds, the loop takes all of them |
| CharacterStream.ReadBytes | src/character_stream.rs:99-130 | success exactly when there was no I/O error and exactly `amount` bytes arrived, at least one; `NoBytesRead` exactly when neither a byte nor an error arrived; `IoError` exactly when an error arrived, with the first error's kind and every byte read; a short read is `Other` with the bytes obtained |
| CharacterStream.ReadByte | src/character_stream.rs:133-135 | a byte at the front is returned using one outcome; `NoBytesRead` exactly when the source is at an end, and a read that returns no bytes uses exactly that one outcome; a failed first read is the `IoError` of that kind, carrying the bytes the read drew; it draws exactly what `read_bytes(1)` draws; nothing is used only when the source is exhausted |
| CharacterStream.Validate | src/character_stream.rs:153-177 | strict mode succeeds exactly when strict conversion gives one character, and a strict success is exactly the encoding of the returned character; lossy mode succeeds exactly when lossy conversion gives one character, and then returns it; a strict failure on bytes strict conversion accepts reports their character count; every failure is `Other` carrying all the bytes; a lossy failure reports a character count other than one; a strict failure reports the conversion failure exactly when strict conversion refuses the bytes |
| CharacterStream.ReadChar | src/character_stream.rs:144-193 | a read uses no input exactly when the source is exhausted; a strict success consumed exactly the encoding of the returned character; a lossy success consumed that encoding or is U+FFFD for a single invalid leading byte; decoding errors carry every byte consumed; strict mode never reports a character count; a read that returns no bytes for the leading byte, anywhere in the source, gives `NoBytesRead` using that one outcome |
| CharacterStream.OneCharacter | src/character_stream.rs:153-178 | the bytes of one announced sequence validate to their character when well-formed; otherwise to `Other` carrying all of them, with the character count in lossy mode (always at least two) and the conversion failure in strict mode |
| CharacterStream.InvalidLeadingByte | src/character_stream.rs:180-189 | an invalid leading byte costs exactly one byte and gives U+FFFD when lossy, `Other` with that one byte when strict |
| CharacterStream.LeadingByteAtEnd | src/character_stream.rs:145-151 | a leading byte announcing continuation bytes, followed by an end, gives `NoBytesRead` and the leading byte is lost |
| CharacterStream.FullSequence | src/character_stream.rs:146-178 | with a valid leading byte and its n continuation bytes available, `read_char` consumes exactly 1 + n bytes and yields the encoded character when they are well-formed, otherwise `Other` with all of them, in both modes |
| CharacterStream.StrictOkIffEncoding | src/character_stream.rs:153-172 | in strict mode a complete announced sequence yields `Ok(c)` if and only if its bytes are the encoding of `c` |
| CharacterStream.ReadEncodedChar | src/character_stream.rs:144-193 | the encoding of a character reads back as that character, consuming exactly its bytes, in either mode |
| CharacterStream.ReadToEnd | src/character_stream.rs:144-193 | repeated reads up to the first `NoBytesRead` produce at most one result per outcome and none of them `NoBytesRead` |
| CharacterStream.RoundTrip | src/character_stream.rs:144-193 | a source holding the encoding of a text reads back as that text's characters, in order, and then `NoBytesRead` |
| CharacterStream.AbEuro | src/character_stream.rs:144-193 | bytes 61 62 E2 82 AC read as 'a', 'b', '€' |
| CharacterStream.LossyCanFail | src/character_stream.rs:169-178 | lossy `read_char` on E2 41 42 fails with `Other` carrying all three bytes and a count of three characters |
| CharacterStream.ReadPastError | src/character_stream.rs:100-115 | the reading loop goes on after an I/O error: the error carries the bytes read before and after it |
| CharacterStream.IoErrorOnLead | src/character_stream.rs:191 | a failed read of the leading byte gives the `IoError` of that kind with the bytes the read drew, in either mode |
| CharacterStream.IoErrorInSequence | src/character_stream.rs:149-151 | a failed read among the continuation bytes gives the `IoError` of the first failure, carrying only the continuation bytes, and consumes the leading byte and every outcome `read_bytes` drew |
| CharacterStream.CutShortSequence | src/character_stream.rs:146-151 | a valid leading byte followed by fewer continuation bytes than it announces, and then the final end of input, gives a short read that carries only the continuation bytes, using all of them and the leading byte, in either mode |
| Peekable.NoBytesReadDrains | src/character_stream.rs:117-119 | when the source's end is final, a `NoBytesRead` from the decoder means the source is used up |
| Peekable.SingleFromStream | src/character_stream.rs:255-262 | a new single-peek buffer starts with an empty queue over the given decoder |
| Peekable.TakeNext | src/character_stream.rs:264-269 | a non-empty queue gives up its front result and keeps the rest in order, without reading the decoder; an empty queue gives the decoder's next result, the decoder moves past the bytes that read used, and the queue stays empty |
| Peekable.SingleRead | src/character_stream.rs:316-319 | a read hands out the cached result without touching the decoder, or reads through when nothing is cached; the queue is empty afterwards |
| Peekable.SinglePeek | src/character_stream.rs:278-289 | with one result cached the peek changes nothing; with none it reads once and caches that result, even `NoBytesRead`; the queue never holds more than one result |
| Peekable.SinglePeekIdempotent | src/character_stream.rs:279-282 | a second peek shows the same result and leaves the same state: the decoder is not read again |
| Peekable.SinglePeekThenRead | src/character_stream.rs:278-289 | a peek before a read changes neither the read's result nor the state after it |
| Peekable.SinglePeekThenReads | src/character_stream.rs:278-289 | one peek changes nothing that any number of later reads return |
| Peekable.SingleInterleaving | src/character_stream.rs:278-319 | peeks interleaved anywhere among single-peek reads leave the sequence of read results unchanged |
| Peekable.MultiFromStream | src/character_stream.rs:255-262 | a new multi-peek buffer starts with an empty queue and the cursor at 0 |
| Peekable.MultiPeekAsWritten | src/character_stream.rs:294-309 | the original peek panics exactly when the cursor is past the queue and the read finds input; otherwise the cursor moves on by one, and a cursor inside the queue shows the queued result without reading; at or past the end of the queue a `NoBytesRead` read shows `None`, leaves the queue alone and moves the decoder past it; at the end of the queue any other result is the decoder's next read, appended to the queue and shown, with the decoder moved past it |
| Peekable.MultiPeekPanics | src/character_stream.rs:298-307 | over a source that ends once and then yields 'a', a first peek returns `None` and the second panics |
| Peekable.MultiPeek | src/character_stream.rs:294-309 | the cursor stays within the queue; a cursor inside the queue shows the queued result without reading; at the end of the queue the decoder's next result is appended to the queue and shown, with the decoder moved past the bytes it used, unless it is `NoBytesRead`, which shows nothing and is not queued; the queue only grows at the back, by at most one; the queue never holds a `NoBytesRead` and the source keeps a final end |
| Peekable.MultiPeekAgrees | src/character_stream.rs:294-309 | from any state whose cursor is within the queue, the corrected peek and the original show the same item and leave the same state, except that on `None` the original also moves the cursor |
| Peekable.ResetPeek | src/character_stream.rs:311-313 | the cursor returns to 0; queue and decoder are unchanged |
| Peekable.MultiRead | src/character_stream.rs:326-330 | a read resets the cursor and removes only the front of the queue, or reads through when the queue is empty |
| Peekable.MultiPeekThenReads | src/character_stream.rs:294-330 | with a final end, one peek changes nothing that any number of later reads return |
| Peekable.MultiInterleaving | src/character_stream.rs:291-335 | with a final end, peeks and cursor resets interleaved anywhere among multi-peek reads leave the sequence of read results unchanged |
| Peekable.PeeksShowReads | src/character_stream.rs:294-330 | successive peeks show, in order, exactly what successive reads would return once the results before the cursor are gone, with `NoBytesRead` shown as `None` |
| Peekable.PeekAheadReads | src/character_stream.rs:294-330 | with a final end, any number of peeks change nothing that later reads return |
| Peekable.PeekReplay | src/character_stream.rs:294-313 | with a final end, k peeks from the front of the queue, a reset and k more peeks show the same items in both rounds, and both show what k reads would return |
| Peekable.MultiPeekSwallowsEnd | src/character_stream.rs:298-299 | where input follows an end, a peek that meets the end removes the `NoBytesRead` a plain read would have returned |
| CharacterIter.New | src/character_iter.rs:22-27 | a new iterator starts with the interruption counter at 0 |
| CharacterIter.Next | src/character_iter.rs:53-78 | every call reads at least once; the counter stays within `INTERRUPTED_MAXIMUM + 1`; it is 0 after anything is yielded and never lowered by a `None` |
| CharacterIter.NextClosedForm | src/character_iter.rs:53-78 | with l leading interrupted reads and r retries left, more interrupts than retries end in `None` after r + 1 reads, with the counter raised by r; otherwise the first other step decides: a decoder result is yielded with the counter cleared, and an I/O error or the end of the steps gives `None`, with the counter raised by l |
| CharacterIter.NextOneRead | src/character_iter.rs:54-75 | one read at a time: a result is yielded and clears the counter; an interrupt at count ≤ 5 retries with the count raised; an interrupt past that, or any other error, gives `None` and keeps the count |
| CharacterIter.InterruptStorm | src/character_iter.rs:63-69 | against a source interrupted on every read, a fresh iterator's `next` makes exactly 7 reads, returns `None` and leaves the counter at 6; the following `next` makes one read and returns `None` |
| CharacterIter.NoTerminalState | src/character_iter.rs:53-78 | after `next` returns `None` on an I/O error, the next call reads again and yields the result it finds |

## Findings

| source | as written | input that shows it | evidently intended | confidence | as-written member | corrected member |
|---|---|---|---|---|---|---|
| src/character_stream.rs:294-309 | multi-peek `peek` moves `position` on even when it returns `None`, so the cursor passes the end of the queue; a later peek whose read succeeds pushes one result and indexes `buffer[position]` one slot past it, which panics | a source whose first read returns no bytes and whose next read returns 0x61: `peek` gives `None`, the next `peek` panics | the cursor moves on only when the peek shows something, so it never leaves the queue | high, not executed | `Peekable.MultiPeekPanics` | `Peekable.MultiPeek` |

## Left out

- `ToCharacterStream`, `TryToCharacterStream`, `ToCharacterIterator` and `TryToCharacterIterator`: construction wrappers over real I/O (cursors, files, buffered readers).
- `Deref`, `DerefMut`, `AsRef`, `AsMut`, `From`, the `lossy` builder, the `peeky` wrappers and the `is_lossy` accessors: trivial accessors. The lossy flag is a field that no modelled operation changes.
- The `Debug` impl of `CharacterStream`: formatting only, and it recurses on itself.
- The `IntoIterator` impls: glue. They call a two-argument `CharacterIterator::new` that does not match the one-argument constructor in `src/character_iter.rs`.
- `stream`, `stream_mut`, `peek` and `is_lossy` on the iterator: accessors. `peek_char` is not part of this model.
- How the iterator's source is built. The iterator was written against an older stream API whose reads return an I/O result around a decoder result. The model takes that per-read outcome as given.
- The internal retry of `std::io::Bytes` on interrupted reads. `ReadBytes` records every failed read, interrupted ones included.
- The `println!` calls and the `lossy_test` test: I/O.
- The text of I/O and `anyhow` error messages: they become tags.
- `src/lib.rs`: module wiring. Its two marker types become the two peek-buffer records.
- Integer widths: the interruption counter never exceeds 6, so `usize` overflow cannot arise. The `amount as u64` conversion is exact.
- CharacterStream.Pulled: a reader whose reads fail forever makes `read_bytes` loop without end, because the loop passes over every error and stops only at a read of no bytes or after `amount` bytes (src/character_stream.rs:100-101). The byte source here is a finite sequence of outcomes with a final end after it, so a read that never returns cannot be expressed.
- Peekable.MultiInterleaving: proved only for sources whose end is final. Where more input follows an end, a multi-peek `peek` swallows the `NoBytesRead` that a plain read would return (`Peekable.MultiPeekSwallowsEnd`).
- Peekable.MultiPeek: the rest of the model uses this corrected peek, whose cursor stays in place when it shows nothing. The peek as written is `Peekable.MultiPeekAsWritten`.

=== FILE: character_iter.dfy ===
/**
 The iterator over a character source, with bounded retry on interrupted
 reads. Its source produces, per read, either a decoder result (`Inner`) or
 an I/O error of some kind (`IoErr`); once its steps run out, every further
 read is an unexpected end of file.
 */
module CharacterIter {

  import opened Wrappers
  import opened Errors

  /** `INTERRUPTED_MAXIMUM` */
  const InterruptedMaximum: nat := 5

  /** What one read of the iterator's source produces. */
  datatype IterStep = Inner(result: CharResult) | IoErr(kind: ErrorKind)

  /** The iterator: the source's remaining steps and the count of
      interrupted reads since the last result. */
  datatype CharacterIterator = CharacterIterator(steps: seq<IterStep>, interruptedCount: nat) {

    /** The counter never goes beyond one past the maximum. */
    predicate Valid() {
      interruptedCount <= InterruptedMaximum + 1
    }
  }

  /** `CharacterIterator::new`: the counter starts at zero. */
  function New(steps: seq<IterStep>): (it: CharacterIterator)
    ensures it.Valid() && it.interruptedCount == 0 && it.steps == steps
  {
    CharacterIterator(steps, 0)
  }

  /** What `next` returns and the iterator it leaves. */
  datatype Yield = Yield(item: Option<CharResult>, iter: CharacterIterator)

  /** The number of interrupted reads in a row at the front of `steps`. */
  function LeadingInterrupts(steps: seq<IterStep>): (n: nat)
    ensures n <= |steps|
    ensures forall i | 0 <= i < n :: steps[i] == IoErr(Interrupted)
    ensures n < |steps| ==> steps[n] != IoErr(Interrupted)
  {
    if steps == [] || steps[0] != IoErr(Interrupted) then 0
    else 1 + LeadingInterrupts(steps[1..])
  }

  /** How many more interrupted reads `next` retries from a given count. */
  function Retries(count: nat): nat {
    if count <= InterruptedMaximum then InterruptedMaximum + 1 - count else 0
  }

  /** `next`: a decoder result, whatever it is, is yielded and clears the
      counter. An interrupted read is retried while the counter is at most
      the maximum, counting it; past that, or on any other I/O error, the
      iterator yields nothing and keeps its count. */
  function Next(it: CharacterIterator): (r: Yield)
    ensures it.Valid() ==> r.iter.Valid()
    ensures r.item.Some? ==> r.iter.interruptedCount == 0
    ensures r.item.None? ==> r.iter.interruptedCount >= it.interruptedCount
    ensures |r.iter.steps| < |it.steps| || it.steps == r.iter.steps == []
    decreases Retries(it.interruptedCount)
  {
    var step := if it.steps == [] then IoErr(UnexpectedEof) else it.steps[0];
    var rest := if it.steps == [] then [] else it.steps[1..];
    match step
    case Inner(result) =>
      Yield(Some(result), CharacterIterator(rest, 0))
    case IoErr(Interrupted) =>
      if it.interruptedCount <= InterruptedMaximum then
        Next(CharacterIterator(rest, it.interruptedCount + 1))
      else
        Yield(None, CharacterIterator(rest, it.interruptedCount))
    case IoErr(_) =>
      Yield(None, CharacterIterator(rest, it.interruptedCount))
  }

  /** `next` in closed form: with `l` interrupted reads at the front and
      `budget` retries left, more interrupts than retries end in `None` after
      `budget + 1` reads; otherwise the first other step decides. */
  lemma {:induction false} NextClosedForm(it: CharacterIterator)
    ensures var l := LeadingInterrupts(it.steps);
            var budget := Retries(it.interruptedCount);
            && (l > budget ==>
                  Next(it) == Yield(None, CharacterIterator(it.steps[budget + 1..], it.interruptedCount + budget)))
            && (l <= budget && l == |it.steps| ==>
                  Next(it) == Yield(None, CharacterIterator([], it.interruptedCount + l)))
            && (l <= budget && l < |it.steps| && it.steps[l].Inner? ==>
                  Next(it) == Yield(Some(it.steps[l].result), CharacterIterator(it.steps[l + 1..], 0)))
            && (l <= budget && l < |it.steps| && it.steps[l].IoErr? ==>
                  Next(it) == Yield(None, CharacterIterator(it.steps[l + 1..], it.interruptedCount + l)))
    decreases Retries(it.interruptedCount)
  {
    if it.steps != [] && it.steps[0] == IoErr(Interrupted) && it.interruptedCount <= InterruptedMaximum {
      var next := CharacterIterator(it.steps[1..], it.interruptedCount + 1);
      assert Next(it) == Next(next);
      NextClosedForm(next);
      var l' := LeadingInterrupts(next.steps);
      var budget' := Retries(next.interruptedCount);
      assert LeadingInterrupts(it.steps) == 1 + l';
      assert Retries(it.interruptedCount) == 1 + budget';
      if l' > budget' {
        assert next.steps[budget' + 1..] == it.steps[budget' + 2..];
      } else if l' < |next.steps| {
        assert next.steps[l'] == it.steps[l' + 1];
        assert next.steps[l' + 1..] == it.steps[l' + 2..];
      }
    }
  }

  /** The single steps of `next`, one read at a time. */
  lemma NextOneRead(it: CharacterIterator, step: IterStep, rest: seq<IterStep>)
    requires it.steps == [step] + rest
    ensures step.Inner? ==> Next(it) == Yield(Some(step.result), CharacterIterator(rest, 0))
    ensures step == IoErr(Interrupted) && it.interruptedCount <= InterruptedMaximum ==>
              Next(it) == Next(CharacterIterator(rest, it.interruptedCount + 1))
    ensures step == IoErr(Interrupted) && it.interruptedCount > InterruptedMaximum ==>
              Next(it) == Yield(None, CharacterIterator(rest, it.interruptedCount))
    ensures step.IoErr? && step.kind != Interrupted ==>
              Next(it) == Yield(None, CharacterIterator(rest, it.interruptedCount))
  {
    assert it.steps[1..] == rest;
  }

  /** `n` interrupted reads in a row. */
  function Interrupts(n: nat): (steps: seq<IterStep>)
    ensures |steps| == n
    ensures forall i | 0 <= i < n :: steps[i] == IoErr(Interrupted)
  {
    seq(n, i => IoErr(Interrupted))
  }

  /** Against a source that is interrupted on every read, a fresh iterator's
      `next` reads seven times (the first read and six retries), yields
      nothing and leaves the counter at six; a second `next` reads once
      more and yields nothing again. */
  lemma InterruptStorm(n: nat)
    requires n >= InterruptedMaximum + 2
    ensures Next(New(Interrupts(n))) == Yield(None, CharacterIterator(Interrupts(n - 7), 6))
    ensures n >= 8 ==>
              Next(Next(New(Interrupts(n))).iter) == Yield(None, CharacterIterator(Interrupts(n - 8), 6))
  {
    var steps := Interrupts(n);
    NextClosedForm(New(steps));
    assert LeadingInterrupts(steps) == n;
    assert steps[7..] == Interrupts(n - 7);
    if n >= 8 {
      NextClosedForm(CharacterIterator(Interrupts(n - 7), 6));
      assert LeadingInterrupts(Interrupts(n - 7)) == n - 7;
      assert Interrupts(n - 7)[1..] == Interrupts(n - 8);
    }
  }

  /** There is no terminal state: after `next` has yielded nothing, a later
      `next` reads the source again and yields what it finds. */
  lemma NoTerminalState(kind: ErrorKind, x: CharResult, rest: seq<IterStep>)
    requires kind != Interrupted
    ensures var first := Next(New([IoErr(kind), Inner(x)] + rest));
            && first.item.None?
            && Next(first.iter) == Yield(Some(x), CharacterIterator(rest, 0))
  {
    var steps := [IoErr(kind), Inner(x)] + rest;
    assert steps[1..] == [Inner(x)] + rest;
    assert ([Inner(x)] + rest)[1..] == rest;
  }
}

=== FILE: character_stream.dfy ===
/**
 The character decoder: a byte source plus a lossy flag, read one UTF-8
 character at a time.

 The byte source is the sequence of outcomes its successive one-byte reads
 produce. `End` is a read that returned no bytes; a source may produce more
 bytes after one, as `std::io::Read` allows. Reading past the last outcome
 is a permanent end of input and consumes nothing. A read position is the
 number of outcomes already consumed, so every operation reports `used`.
 */
module CharacterStream {

  import opened Wrappers
  import opened Utf8
  import opened Errors

  /** What one attempt to read a byte produces. */
  datatype Outcome = Byte(value: u8) | End | Fail(kind: ErrorKind)

  /** The bytes among some outcomes, in order. */
  function BytesOf(outs: seq<Outcome>): seq<u8> {
    if outs == [] then []
    else (if outs[0].Byte? then [outs[0].value] else []) + BytesOf(outs[1..])
  }

  /** The kind of the first I/O error among some outcomes. */
  function FirstFailure(outs: seq<Outcome>): Option<ErrorKind> {
    if outs == [] then None
    else if outs[0].Fail? then Some(outs[0].kind)
    else FirstFailure(outs[1..])
  }

  /** A source that delivers `bs` and then ends for good. */
  function Source(bs: seq<u8>): (src: seq<Outcome>)
    ensures |src| == |bs|
    ensures forall i | 0 <= i < |bs| :: src[i] == Byte(bs[i])
  {
    seq(|bs|, i requires 0 <= i < |bs| => Byte(bs[i]))
  }

  /** A decoder: the outcomes not read yet and the fixed lossy flag. */
  datatype CharStream = CharStream(src: seq<Outcome>, lossy: bool) {

    /** The decoder after `n` outcomes have been read. */
    function Skip(n: nat): (s: CharStream)
      requires n <= |src|
      ensures s.lossy == lossy && |s.src| == |src| - n
    {
      this.(src := src[n..])
    }
  }

  /** What a read produced and how many outcomes it consumed. */
  datatype Read<T> = Read(value: Result<T>, used: nat)

  /** The number of continuation bytes a leading byte announces, judged by
      its high bits alone: 0xxxxxxx, 110xxxxx, 1110xxxx, 11110xxx. */
  function RemainingByteCount(b: u8): (r: Option<nat>)
    ensures r == Some(0) <==> b <= 0x7F
    ensures r == Some(1) <==> 0xC0 <= b <= 0xDF
    ensures r == Some(2) <==> 0xE0 <= b <= 0xEF
    ensures r == Some(3) <==> 0xF0 <= b <= 0xF7
    ensures r == None <==> (0x80 <= b <= 0xBF || 0xF8 <= b)
    ensures r.Some? ==> r.value <= 3
  {
    if b / 128 == 0 then Some(0)
    else if b / 32 == 6 then Some(1)
    else if b / 16 == 14 then Some(2)
    else if b / 8 == 30 then Some(3)
    else None
  }

  /** The classifier agrees with RFC 3629 on every byte that can start a
      well-formed sequence, and accepts exactly five more that cannot:
      C0 and C1 (only overlong forms) and F5-F7 (beyond U+10FFFF). */
  lemma ClassifierAgainstRfc(b: u8)
    ensures SequenceLength(b) > 0 ==> RemainingByteCount(b) == Some(SequenceLength(b) - 1)
    ensures RemainingByteCount(b).Some? && SequenceLength(b) == 0
            <==> b in {0xC0, 0xC1, 0xF5, 0xF6, 0xF7}
  {
  }

  /** How many outcomes `take(amount).bytes().collect()` draws from `src`:
      it stops right after the amount-th byte, at an end, or when the source
      runs dry. An I/O error does not stop it. */
  function Pulled(src: seq<Outcome>, amount: nat): (used: nat)
    ensures used <= |src|
    ensures |BytesOf(src[..used])| <= amount
    ensures forall i | 0 <= i < used - 1 :: src[i] != End
    ensures used < |src| ==> (used > 0 && src[used - 1] == End) || |BytesOf(src[..used])| == amount
    ensures used > 0 && |BytesOf(src[..used])| == amount ==> src[used - 1].Byte?
    ensures amount == 0 ==> used == 0
  {
    if amount == 0 || src == [] then 0
    else
      match src[0]
      case Byte(_) =>
        var n := Pulled(src[1..], amount - 1);
        assert src[..n + 1] == [src[0]] + src[1..][..n];
        1 + n
      case End =>
        assert src[..1] == [src[0]];
        1
      case Fail(_) =>
        var n := Pulled(src[1..], amount);
        assert src[..n + 1] == [src[0]] + src[1..][..n];
        1 + n
  }

  /** `read_bytes`: reads up to `amount` bytes. The first I/O error wins
      and carries every byte read; otherwise no bytes is `NoBytesRead`,
      too few is a short read, and exactly `amount` is success. */
  function ReadBytes(src: seq<Outcome>, amount: nat): (r: Read<seq<u8>>)
    ensures r.used == Pulled(src, amount)
    ensures r.value.Ok? <==> FirstFailure(src[..r.used]).None? && 0 < |BytesOf(src[..r.used])| == amount
    ensures r.value.Ok? ==> r.value.value == BytesOf(src[..r.used])
    ensures r.value == Err(NoBytesRead)
            <==> FirstFailure(src[..r.used]).None? && BytesOf(src[..r.used]) == []
    ensures r.value.Err? && r.value.error.IoError?
            <==> FirstFailure(src[..r.used]).Some?
    ensures r.value.Err? && r.value.error.IoError? ==>
              r.value.error == IoError(BytesOf(src[..r.used]), FirstFailure(src[..r.used]).value)
    ensures r.value.Err? && r.value.error.Other? ==>
              r.value.error == Other(BytesOf(src[..r.used]), ShortRead)
              && 0 < |BytesOf(src[..r.used])| < amount
  {
    var used := Pulled(src, amount);
    var bytes := BytesOf(src[..used]);
    var value :=
      match FirstFailure(src[..used])
      case Some(kind) => Err(IoError(bytes, kind))
      case None =>
        if |bytes| == 0 then Err(NoBytesRead)
        else if |bytes| != amount then Err(Other(bytes, ShortRead))
        else Ok(bytes);
    Read(value, used)
  }

  /** `read_byte`: one byte, or the error reading it gave. */
  function ReadByte(src: seq<Outcome>): (r: Read<u8>)
    ensures r.used <= |src|
    ensures r.value.Ok? ==> r.used == 1 && src[0] == Byte(r.value.value)
    ensures src != [] && src[0].Byte? ==> r == Read(Ok(src[0].value), 1)
    ensures r.value == Err(NoBytesRead) <==> src == [] || src[0] == End
    ensures r.used == 0 <==> src == []
    ensures r.used == Pulled(src, 1)
    ensures src != [] && src[0] == End ==> r == Read(Err(NoBytesRead), 1)
    ensures src != [] && src[0].Fail? ==>
              r.value == Err(IoError(BytesOf(src[..r.used]), src[0].kind))
  {
    var r := ReadBytes(src, 1);
    FirstOutcome(src, 1);
    match r.value
    case Ok(bytes) => Read(Ok(bytes[0]), r.used)
    case Err(e) => Read(Err(e), r.used)
  }

  /** A read of a non-empty amount from a non-empty source consumes the
      first outcome, which alone decides an end or an error. */
  lemma FirstOutcome(src: seq<Outcome>, amount: nat)
    requires amount > 0
    ensures var used := Pulled(src, amount);
            src != [] ==>
            && used >= 1
            && (src[0] == End ==> used == 1 && BytesOf(src[..used]) == [] && FirstFailure(src[..used]).None?)
            && (src[0].Fail? ==> FirstFailure(src[..used]) == Some(src[0].kind))
            && (src[0].Byte? && amount == 1 ==> used == 1 && src[..used] == [src[0]])
  {
    if src != [] {
      var used := Pulled(src, amount);
      assert src[..used] == [src[0]] + src[1..used];
    }
  }

  /** Turns the bytes of one character into a result: lossily or strictly
      converted, the text must hold exactly one character. */
  function Validate(bytes: seq<u8>, lossy: bool): (r: Result<char>)
    ensures r.Ok? && !lossy ==> Encode(r.value) == bytes
    ensures r.Ok? && lossy ==> DecodeLossy(bytes) == [r.value]
    ensures r.Err? ==> r.error.Other? && r.error.bytes == bytes
    ensures r.Err? && lossy ==>
              r.error.cause == CharCount(|DecodeLossy(bytes)|) && |DecodeLossy(bytes)| != 1
    ensures r.Err? && !lossy ==> (r.error.cause == InvalidUtf8 <==> DecodeStrict(bytes).None?)
    ensures !lossy ==> (r.Ok? <==> DecodeStrict(bytes).Some? && |DecodeStrict(bytes).value| == 1)
    ensures !lossy && r.Err? && DecodeStrict(bytes).Some? ==>
              r.error.cause == CharCount(|DecodeStrict(bytes).value|)
  {
    var chars :=
      if lossy then Some(DecodeLossy(bytes)) else DecodeStrict(bytes);
    match chars
    case None => Err(Other(bytes, InvalidUtf8))
    case Some(text) =>
      if |text| == 1 then
        assert text == [text[0]] + [];
        Ok(text[0])
      else Err(Other(bytes, CharCount(|text|)))
  }

  /** `read_char` of `CharacterStream`: reads a leading byte, then as many
      continuation bytes as it announces, then validates them. */
  function ReadChar(s: CharStream): (r: Read<char>)
    ensures r.used <= |s.src|
    ensures r.used == 0 <==> s.src == []
    ensures s.src == [] ==> r.value == Err(NoBytesRead)
    ensures r.value.Ok? ==> FirstFailure(s.src[..r.used]).None?
    ensures r.value.Ok? && !s.lossy ==> BytesOf(s.src[..r.used]) == Encode(r.value.value)
    ensures r.value.Ok? && s.lossy && BytesOf(s.src[..r.used]) != Encode(r.value.value) ==>
              r.value.value == Replacement && |BytesOf(s.src[..r.used])| == 1
              && RemainingByteCount(BytesOf(s.src[..r.used])[0]).None?
    ensures r.value.Err? && r.value.error.Other? && r.value.error.cause != ShortRead ==>
              r.value.error.bytes == BytesOf(s.src[..r.used])
    ensures !s.lossy && r.value.Err? && r.value.error.Other? ==> !r.value.error.cause.CharCount?
    ensures s.src != [] && s.src[0] == End ==> r == Read(Err(NoBytesRead), 1)
  {
    var lead := ReadByte(s.src);
    match lead.value
    case Err(e) => Read(Err(e), lead.used)
    case Ok(b) =>
      assert s.src[..1] == [Byte(b)];
      match RemainingByteCount(b)
      case None =>
        Read(if s.lossy then Ok(Replacement) else Err(Other([b], InvalidStartingByte)), 1)
      case Some(n) =>
        if n == 0 then
          OneCharacter([b], s.lossy);
          Read(Validate([b], s.lossy), 1)
        else
          var rest := s.src[1..];
          var more := ReadBytes(rest, n);
          assert s.src[..1 + more.used] == [Byte(b)] + rest[..more.used];
          match more.value
          case Err(e) => Read(Err(e), 1 + more.used)
          case Ok(tail) =>
            OneCharacter([b] + tail, s.lossy);
            Read(Validate([b] + tail, s.lossy), 1 + more.used)
  }

  /** The bytes of one announced sequence decode to a single character
      exactly when they are well-formed, in either mode; an ill-formed
      sequence never decodes to exactly one character, lossily or not. */
  lemma OneCharacter(bytes: seq<u8>, lossy: bool)
    requires |bytes| >= 1 && RemainingByteCount(bytes[0]) == Some(|bytes| - 1)
    ensures WellFormedChar(bytes) ==> Validate(bytes, lossy) == Ok(DecodeChar(bytes))
    ensures !WellFormedChar(bytes) ==>
              Validate(bytes, lossy) == Err(Other(bytes, if lossy then CharCount(|DecodeLossy(bytes)|) else InvalidUtf8))
    ensures !WellFormedChar(bytes) ==> |DecodeLossy(bytes)| >= 2
  {
    ClassifierAgainstRfc(bytes[0]);
    var ch := NextChunk(bytes);
    assert bytes[..|bytes|] == bytes;
    if WellFormedChar(bytes) {
      assert ch.len == |bytes|;
      SingleCharacter(bytes);
    } else {
      assert ch.len < |bytes|;
      assert ch.Invalid?;
    }
  }

  /** A source of two byte strings in a row is the two sources in a row. */
  lemma SourceAppend(a: seq<u8>, b: seq<u8>)
    ensures Source(a + b) == Source(a) + Source(b)
  {
  }

  /** The outcomes of `Source(bs)` are the bytes `bs` and nothing else. */
  lemma {:induction false} SourceContents(bs: seq<u8>)
    ensures BytesOf(Source(bs)) == bs
    ensures FirstFailure(Source(bs)).None?
  {
    if bs != [] {
      var src := Source(bs);
      assert src[1..] == Source(bs[1..]);
      SourceContents(bs[1..]);
      assert bs == [bs[0]] + bs[1..];
    }
  }

  /** A source holding `bs` yields exactly those bytes when asked for
      that many, whatever follows them. */
  lemma {:induction false} ReadAvailable(bs: seq<u8>, rest: seq<Outcome>)
    ensures Pulled(Source(bs) + rest, |bs|) == |bs|
    ensures (Source(bs) + rest)[..|bs|] == Source(bs)
    ensures BytesOf(Source(bs)) == bs
    ensures FirstFailure(Source(bs)).None?
  {
    SourceContents(bs);
    var src := Source(bs) + rest;
    assert src[..|bs|] == Source(bs);
    if bs != [] {
      assert src[0] == Byte(bs[0]);
      assert src[1..] == Source(bs[1..]) + rest;
      ReadAvailable(bs[1..], rest);
    }
  }

  /** An invalid leading byte costs exactly one byte: U+FFFD when lossy,
      an error carrying that byte when strict. */
  lemma InvalidLeadingByte(b: u8, rest: seq<Outcome>, lossy: bool)
    requires RemainingByteCount(b).None?
    ensures ReadChar(CharStream([Byte(b)] + rest, lossy))
            == Read(if lossy then Ok(Replacement) else Err(Other([b], InvalidStartingByte)), 1)
  {
  }

  /** A leading byte that announces continuation bytes, followed by an end
      of input, reads as `NoBytesRead`: the leading byte is lost. */
  lemma LeadingByteAtEnd(b: u8, rest: seq<Outcome>, lossy: bool)
    requires RemainingByteCount(b).Some? && RemainingByteCount(b).value > 0
    requires rest == [] || rest[0] == End
    ensures ReadChar(CharStream([Byte(b)] + rest, lossy))
            == Read(Err(NoBytesRead), if rest == [] then 1 else 2)
  {
    var src := [Byte(b)] + rest;
    assert src[1..] == rest;
    FirstOutcome(rest, RemainingByteCount(b).value);
  }

  /** A failed read of the leading byte is passed on as the I/O error
      `read_bytes` reports, with whatever bytes that read drew. */
  lemma IoErrorOnLead(k: ErrorKind, rest: seq<Outcome>, lossy: bool)
    ensures var src := [Fail(k)] + rest;
            var used := Pulled(src, 1);
            ReadChar(CharStream(src, lossy)) == Read(Err(IoError(BytesOf(src[..used]), k)), used)
  {
  }

  /** A failed read among the continuation bytes is passed on as the I/O
      error of that read, carrying only the continuation bytes; the leading
      byte is consumed and lost. */
  lemma IoErrorInSequence(b: u8, rest: seq<Outcome>, lossy: bool)
    requires RemainingByteCount(b).Some? && RemainingByteCount(b).value > 0
    requires FirstFailure(rest[..Pulled(rest, RemainingByteCount(b).value)]).Some?
    ensures var used := Pulled(rest, RemainingByteCount(b).value);
            ReadChar(CharStream([Byte(b)] + rest, lossy))
            == Read(Err(IoError(BytesOf(rest[..used]), FirstFailure(rest[..used]).value)), 1 + used)
  {
    var src := [Byte(b)] + rest;
    assert src[1..] == rest;
  }

  /** With a valid leading byte and all the continuation bytes it announces
      available, `read_char` consumes exactly those 1 + n bytes. It yields
      the character they encode when they are well-formed, in either mode;
      otherwise an error carrying all of them, even in lossy mode. */
  lemma FullSequence(b: u8, more: seq<u8>, rest: seq<Outcome>, lossy: bool)
    requires RemainingByteCount(b) == Some(|more|)
    ensures var bytes := [b] + more;
            ReadChar(CharStream(Source(bytes) + rest, lossy))
            == Read(if WellFormedChar(bytes) then Ok(DecodeChar(bytes))
                    else Err(Other(bytes, if lossy then CharCount(|DecodeLossy(bytes)|) else InvalidUtf8)),
                    1 + |more|)
  {
    var bytes := [b] + more;
    var src := Source(bytes) + rest;
    assert src[0] == Byte(b);
    assert src[1..] == Source(more) + rest;
    ReadAvailable(more, rest);
    OneCharacter(bytes, lossy);
  }

  /** Strict mode yields `Ok(c)` on a complete announced sequence exactly
      when those bytes are the encoding of `c`. */
  lemma StrictOkIffEncoding(b: u8, more: seq<u8>, rest: seq<Outcome>, c: char)
    requires RemainingByteCount(b) == Some(|more|)
    ensures ReadChar(CharStream(Source([b] + more) + rest, false)).value == Ok(c)
            <==> [b] + more == Encode(c)
  {
    FullSequence(b, more, rest, false);
    var bytes := [b] + more;
    if bytes == Encode(c) {
      DecodeEncode(c);
    }
  }

  /** The encoding of a character, followed by anything, reads back as that
      character, in either mode. */
  lemma ReadEncodedChar(c: char, rest: seq<Outcome>, lossy: bool)
    ensures ReadChar(CharStream(Source(Encode(c)) + rest, lossy)) == Read(Ok(c), |Encode(c)|)
  {
    var e := Encode(c);
    ClassifierAgainstRfc(e[0]);
    assert e == [e[0]] + e[1..];
    FullSequence(e[0], e[1..], rest, lossy);
    DecodeEncode(c);
  }

  /** The results of repeated `read_char` up to the first `NoBytesRead`. */
  function ReadToEnd(s: CharStream): (rs: seq<CharResult>)
    ensures |rs| <= |s.src|
    ensures forall i | 0 <= i < |rs| :: rs[i] != Err(NoBytesRead)
    decreases |s.src|
  {
    var r := ReadChar(s);
    if r.value == Err(NoBytesRead) then []
    else
      assert 0 < r.used <= |s.src|;
      [r.value] + ReadToEnd(s.Skip(r.used))
  }

  /** One step of `ReadToEnd`. */
  lemma ReadToEndStep(s: CharStream)
    requires ReadChar(s).value != Err(NoBytesRead)
    ensures ReadToEnd(s) == [ReadChar(s).value] + ReadToEnd(s.Skip(ReadChar(s).used))
  {
  }

  /** Each character of a text, as a successful read. */
  function Oks(text: string): (rs: seq<CharResult>)
    ensures |rs| == |text|
    ensures forall i | 0 <= i < |text| :: rs[i] == Ok(text[i])
  {
    if text == [] then [] else [Ok(text[0])] + Oks(text[1..])
  }

  /** Round trip: a source holding the UTF-8 encoding of a text reads back
      as the characters of that text, in order, then `NoBytesRead`. */
  lemma {:induction false} RoundTrip(text: string, lossy: bool)
    ensures ReadToEnd(CharStream(Source(EncodeString(text)), lossy)) == Oks(text)
  {
    var s := CharStream(Source(EncodeString(text)), lossy);
    if text == [] {
      assert s.src == [];
    } else {
      var e := Encode(text[0]);
      var tail := Source(EncodeString(text[1..]));
      SourceAppend(e, EncodeString(text[1..]));
      assert s.src == Source(e) + tail;
      ReadEncodedChar(text[0], tail, lossy);
      assert ReadChar(s) == Read(Ok(text[0]), |e|);
      ReadToEndStep(s);
      assert s.Skip(|e|) == CharStream(tail, lossy);
      RoundTrip(text[1..], lossy);
    }
  }

  /** "ab€" (61 62 E2 82 AC) reads as 'a', 'b', '€'. */
  lemma AbEuro()
    ensures ReadToEnd(CharStream(Source([0x61, 0x62, 0xE2, 0x82, 0xAC]), false))
            == [Ok('a'), Ok('b'), Ok('\U{20AC}')]
  {
    var text := "ab\U{20AC}";
    assert Encode('a') == [0x61] && Encode('b') == [0x62];
    assert Encode('\U{20AC}') == [0xE2, 0x82, 0xAC];
    assert EncodeString(['a']) == [0x61] && EncodeString(['b']) == [0x62];
    assert EncodeString(['\U{20AC}']) == [0xE2, 0x82, 0xAC];
    EncodeStringAppend(['a'], ['b']);
    EncodeStringAppend(['a', 'b'], ['\U{20AC}']);
    assert text == ['a', 'b'] + ['\U{20AC}'];
    var bs: seq<u8> := [0x61, 0x62, 0xE2, 0x82, 0xAC];
    assert EncodeString(text) == bs;
    RoundTrip(text, false);
    assert ReadToEnd(CharStream(Source(bs), false)) == Oks(text);
    assert Oks(text) == [Ok('a'), Ok('b'), Ok('\U{20AC}')];
  }

  /** Lossy mode is not free of errors: E2 41 42 converts to three
      characters (U+FFFD, 'A', 'B'), so the read fails with all three bytes. */
  lemma LossyCanFail()
    ensures ReadChar(CharStream(Source([0xE2, 0x41, 0x42]), true))
            == Read(Err(Other([0xE2, 0x41, 0x42], CharCount(3))), 3)
  {
    var more: seq<u8> := [0x41, 0x42];
    var bytes: seq<u8> := [0xE2] + more;
    assert bytes == [0xE2, 0x41, 0x42];
    FullSequence(0xE2, more, [], true);
    assert Source(bytes) + [] == Source(bytes);
    assert !SecondOk(0xE2, 0x41);
    assert !WellFormedChar(bytes);
    LossyE2AB();
  }

  /** Reading goes on past an I/O error: the error is reported with every
      byte that was read around it. */
  lemma ReadPastError(k: ErrorKind, x: u8, y: u8)
    ensures ReadBytes([Byte(x), Fail(k), Byte(y), Byte(0)], 2) == Read(Err(IoError([x, y], k)), 3)
  {
    var src := [Byte(x), Fail(k), Byte(y), Byte(0)];
    assert Pulled(src[3..], 0) == 0;
    assert Pulled(src[2..], 1) == 1;
    assert Pulled(src[1..], 1) == 2;
    assert Pulled(src, 2) == 3;
    var got := src[..3];
    assert got[1..] == [Fail(k), Byte(y)];
    assert got[1..][1..] == [Byte(y)];
    assert BytesOf(got[1..]) == [y];
    assert BytesOf(got) == [x, y];
    assert FirstFailure(got) == Some(k);
  }

  /** Asked for at least as many bytes as it holds, a source holding `bs`
      and then ending for good gives all of them and runs dry. */
  lemma {:induction false} ReadRunsDry(bs: seq<u8>, amount: nat)
    requires |bs| <= amount
    ensures Pulled(Source(bs), amount) == |bs|
  {
    if bs != [] {
      assert Source(bs)[0] == Byte(bs[0]);
      assert Source(bs)[1..] == Source(bs[1..]);
      ReadRunsDry(bs[1..], amount - 1);
    }
  }

  /** A sequence cut short by the final end of input is a short read that
      carries only the continuation bytes it got: the leading byte is not
      part of the error, in either mode. */
  lemma CutShortSequence(b: u8, got: seq<u8>, lossy: bool)
    requires RemainingByteCount(b).Some? && 0 < |got| < RemainingByteCount(b).value
    ensures ReadChar(CharStream(Source([b] + got), lossy))
            == Read(Err(Other(got, ShortRead)), 1 + |got|)
  {
    var src := Source([b] + got);
    assert src[0] == Byte(b);
    assert src[1..] == Source(got);
    FirstOutcome(src, 1);
    ReadRunsDry(got, RemainingByteCount(b).value);
    SourceContents(got);
    assert Source(got)[..|got|] == Source(got);
  }
}

=== FILE: error.dfy ===
/**
 The stream error taxonomy. The I/O error and the free-form error payloads
 of the original are opaque; they become tags here.
 */
module Errors {

  import opened Utf8

  /** The kinds of I/O error the model tells apart. */
  datatype ErrorKind = Interrupted | UnexpectedEof | OtherKind

  /** Why a read produced `Other`: the message the original attaches. */
  datatype Cause =
    | ShortRead            // fewer bytes than asked for
    | InvalidUtf8          // strict conversion refused the bytes
    | CharCount(count: nat) // the bytes decoded to `count` characters, not one
    | InvalidStartingByte  // the first byte cannot start a sequence

  datatype CharacterError =
    | NoBytesRead
    | IoError(bytes: seq<u8>, kind: ErrorKind)
    | Other(bytes: seq<u8>, cause: Cause)

  datatype Result<+T> = Ok(value: T) | Err(error: CharacterError)

  /** What one `read_char` produces. */
  type CharResult = Result<char>
}

=== FILE: peekable.dfy ===
/**
 The peek buffer over a decoder, in its two disciplines: a single cached
 slot, and a queue with a replay cursor. Both are a decoder, a queue of
 results decoded but not consumed yet, and (multi-peek only) the cursor.
 */
module Peekable {

  import opened Wrappers
  import opened Errors
  import opened CharacterStream

  /** A result handed out together with the state after handing it out. */
  datatype Step<S> = Step(result: CharResult, next: S)

  /** A decoder and its queue after `_read_char`. */
  datatype Taken = Taken(result: CharResult, stream: CharStream, buffer: seq<CharResult>)

  /** `_read_char`: the front of the queue, or a fresh read when it is empty. */
  function TakeNext(stream: CharStream, buffer: seq<CharResult>): (t: Taken)
    ensures buffer != [] ==> [t.result] + t.buffer == buffer && t.stream == stream
    ensures buffer == [] ==>
              && t.result == ReadChar(stream).value
              && t.stream == stream.Skip(ReadChar(stream).used)
              && t.buffer == []
  {
    if buffer != [] then Taken(buffer[0], stream, buffer[1..])
    else
      var r := ReadChar(stream);
      Taken(r.value, stream.Skip(r.used), [])
  }

  /** The source holds no end marker that more input could follow: its end,
      once reached, is final (an in-memory buffer or a file read to its end). */
  predicate FinalEnd(src: seq<Outcome>) {
    forall i | 0 <= i < |src| :: src[i] != End
  }

  /** With a final end, `NoBytesRead` means the source is used up. */
  lemma NoBytesReadDrains(s: CharStream)
    requires FinalEnd(s.src)
    requires ReadChar(s).value == Err(NoBytesRead)
    ensures ReadChar(s).used == |s.src|
  {
  }

  // ---------------------------------------------------------------------
  // Single-slot peek

  datatype SinglePeekStream = SinglePeekStream(stream: CharStream, buffer: seq<CharResult>) {

    /** The queue never holds more than the one cached result. */
    predicate Valid() {
      |buffer| <= 1
    }
  }

  /** `from_stream` (and `new`, which builds the decoder first). */
  function SingleFromStream(stream: CharStream): (p: SinglePeekStream)
    ensures p.Valid() && p.buffer == [] && p.stream == stream
  {
    SinglePeekStream(stream, [])
  }

  /** `read_char` of the single-peek buffer: the cached result if there is
      one, else a read through to the decoder. */
  function SingleRead(p: SinglePeekStream): (r: Step<SinglePeekStream>)
    ensures p.Valid() ==> r.next.Valid() && r.next.buffer == []
    ensures p.buffer != [] ==> r.result == p.buffer[0] && r.next.stream == p.stream
    ensures p.buffer == [] ==>
              && r.result == ReadChar(p.stream).value
              && r.next.stream == p.stream.Skip(ReadChar(p.stream).used)
    ensures r.next.stream.lossy == p.stream.lossy
  {
    var t := TakeNext(p.stream, p.buffer);
    Step(t.result, SinglePeekStream(t.stream, t.buffer))
  }

  /** `peek` of the single-peek buffer: the cached result when there is
      exactly one; otherwise a read whose result is queued and shown. The
      peek always shows something, even `NoBytesRead`. */
  function SinglePeek(p: SinglePeekStream): (r: Step<SinglePeekStream>)
    ensures |p.buffer| == 1 ==> r == Step(p.buffer[0], p)
    ensures p.buffer == [] ==>
              && r.result == ReadChar(p.stream).value
              && r.next == SinglePeekStream(p.stream.Skip(ReadChar(p.stream).used), [r.result])
    ensures p.Valid() ==> r.next.Valid() && r.next.buffer == [r.result]
  {
    if |p.buffer| == 1 then Step(p.buffer[0], p)
    else
      var t := SingleRead(p);
      var buffer := t.next.buffer + [t.result];
      Step(buffer[0], t.next.(buffer := buffer))
  }

  /** A second peek shows the same result and leaves everything as the
      first left it: the decoder is not touched again. */
  lemma SinglePeekIdempotent(p: SinglePeekStream)
    requires p.Valid()
    ensures SinglePeek(SinglePeek(p).next) == SinglePeek(p)
  {
  }

  /** A peek changes nothing about the next read: same result, same state
      afterwards. */
  lemma SinglePeekThenRead(p: SinglePeekStream)
    requires p.Valid()
    ensures SingleRead(SinglePeek(p).next) == SingleRead(p)
    ensures SingleRead(SinglePeek(p).next).result == SinglePeek(p).result
  {
  }

  // ---------------------------------------------------------------------
  // Replay-cursor multi-peek

  datatype MultiPeekStream = MultiPeekStream(stream: CharStream, buffer: seq<CharResult>, position: nat) {

    /** The cursor points into the queue or just past it. */
    predicate Valid() {
      position <= |buffer|
    }

    /** No `NoBytesRead` waits in the queue: a peek never queues one. */
    predicate NoEndQueued() {
      forall i | 0 <= i < |buffer| :: buffer[i] != Err(NoBytesRead)
    }
  }

  /** `from_stream` (and `new`) for the multi-peek buffer. */
  function MultiFromStream(stream: CharStream): (p: MultiPeekStream)
    ensures p.Valid() && p.buffer == [] && p.position == 0 && p.stream == stream
  {
    MultiPeekStream(stream, [], 0)
  }

  /** What a multi-peek `peek` does as the original is written: it may
      index past the end of its queue, which panics. */
  datatype PeekOutcome = Returned(item: Option<CharResult>, next: MultiPeekStream) | Panicked

  /** `peek` of the multi-peek buffer as written: a queued result when the
      cursor is inside the queue, else a fresh read that is queued unless it
      is `NoBytesRead`; then the cursor moves on by one in every case. When
      the cursor has run past the queue, a fresh result is queued one place
      short of where the cursor looks. */
  function MultiPeekAsWritten(p: MultiPeekStream): (r: PeekOutcome)
    ensures r.Panicked? <==>
              p.position > |p.buffer| && ReadChar(p.stream).value != Err(NoBytesRead)
    ensures r.Returned? ==> r.next.position == p.position + 1
    ensures r.Returned? && p.position < |p.buffer| ==>
              r.item == Some(p.buffer[p.position]) && r.next.buffer == p.buffer
              && r.next.stream == p.stream
    ensures r.Returned? && r.item.None? ==> r.next.buffer == p.buffer
    ensures p.position >= |p.buffer| && ReadChar(p.stream).value == Err(NoBytesRead) ==>
              r == Returned(None, p.(stream := p.stream.Skip(ReadChar(p.stream).used),
                                     position := p.position + 1))
    ensures p.position == |p.buffer| && ReadChar(p.stream).value != Err(NoBytesRead) ==>
              r == Returned(Some(ReadChar(p.stream).value),
                            MultiPeekStream(p.stream.Skip(ReadChar(p.stream).used),
                                            p.buffer + [ReadChar(p.stream).value],
                                            p.position + 1))
  {
    if p.position < |p.buffer| then
      Returned(Some(p.buffer[p.position]), p.(position := p.position + 1))
    else
      var r := ReadChar(p.stream);
      var stream := p.stream.Skip(r.used);
      if r.value == Err(NoBytesRead) then
        Returned(None, p.(stream := stream, position := p.position + 1))
      else
        var buffer := p.buffer + [r.value];
        if p.position < |buffer| then
          Returned(Some(buffer[p.position]), MultiPeekStream(stream, buffer, p.position + 1))
        else
          Panicked
  }

  /** A peek at an end that more input follows moves the cursor past the
      queue, and the next peek, finding input, panics. */
  lemma MultiPeekPanics()
    ensures var p0 := MultiFromStream(CharStream([End, Byte(0x61)], false));
            && MultiPeekAsWritten(p0).Returned?
            && MultiPeekAsWritten(p0).item.None?
            && MultiPeekAsWritten(MultiPeekAsWritten(p0).next).Panicked?
  {
    var s := CharStream([End, Byte(0x61)], false);
    assert ReadChar(s) == Read(Err(NoBytesRead), 1);
    assert s.Skip(1).src == [Byte(0x61)];
    assert ReadChar(s.Skip(1)).value == Ok('a');
  }

  /** What a multi-peek `peek` shows and the state it leaves. */
  datatype Peeked = Peeked(item: Option<CharResult>, next: MultiPeekStream)

  /** `peek` of the multi-peek buffer with the cursor kept inside the
      queue: it moves on only when it shows something. */
  function MultiPeek(p: MultiPeekStream): (r: Peeked)
    requires p.Valid()
    ensures r.next.Valid()
    ensures r.next.stream.lossy == p.stream.lossy
    ensures p.position < |p.buffer| ==>
              r == Peeked(Some(p.buffer[p.position]), p.(position := p.position + 1))
    ensures p.position == |p.buffer| ==>
              (r.item.None? <==> ReadChar(p.stream).value == Err(NoBytesRead))
    ensures p.position == |p.buffer| ==>
              r.next.stream == p.stream.Skip(ReadChar(p.stream).used)
    ensures r.item.Some? ==>
              r.next.position == p.position + 1 && r.item.value == r.next.buffer[p.position]
    ensures r.item.None? ==> r.next.position == p.position && r.next.buffer == p.buffer
    ensures |p.buffer| <= |r.next.buffer| <= |p.buffer| + 1
    ensures r.next.buffer[..|p.buffer|] == p.buffer
    ensures p.position == |p.buffer| && ReadChar(p.stream).value != Err(NoBytesRead) ==>
              r == Peeked(Some(ReadChar(p.stream).value),
                          MultiPeekStream(p.stream.Skip(ReadChar(p.stream).used),
                                          p.buffer + [ReadChar(p.stream).value],
                                          p.position + 1))
    ensures p.NoEndQueued() ==> r.next.NoEndQueued()
    ensures FinalEnd(p.stream.src) ==> FinalEnd(r.next.stream.src)
  {
    if p.position < |p.buffer| then
      Peeked(Some(p.buffer[p.position]), p.(position := p.position + 1))
    else
      var r := ReadChar(p.stream);
      var stream := p.stream.Skip(r.used);
      if r.value == Err(NoBytesRead) then
        Peeked(None, p.(stream := stream))
      else
        var buffer := p.buffer + [r.value];
        assert buffer[..|p.buffer|] == p.buffer;
        Peeked(Some(r.value), MultiPeekStream(stream, buffer, p.position + 1))
  }

  /** The corrected peek differs from the original only where the original
      returns `None`: there it keeps the cursor in place. */
  lemma MultiPeekAgrees(p: MultiPeekStream)
    requires p.Valid()
    ensures MultiPeekAsWritten(p).Returned?
    ensures MultiPeekAsWritten(p).item == MultiPeek(p).item
    ensures MultiPeek(p).item.Some? ==> MultiPeekAsWritten(p).next == MultiPeek(p).next
    ensures MultiPeek(p).item.None? ==>
              MultiPeekAsWritten(p).next == MultiPeek(p).next.(position := p.position + 1)
  {
  }

  /** `reset_peek`: the cursor goes back to the front of the queue. */
  function ResetPeek(p: MultiPeekStream): (q: MultiPeekStream)
    ensures q.Valid() && q.position == 0
    ensures q.buffer == p.buffer && q.stream == p.stream
  {
    p.(position := 0)
  }

  /** `read_char` of the multi-peek buffer: resets the cursor, then takes
      the front of the queue, or reads through when it is empty. */
  function MultiRead(p: MultiPeekStream): (r: Step<MultiPeekStream>)
    ensures r.next.Valid() && r.next.position == 0
    ensures p.buffer != [] ==>
              r.result == p.buffer[0] && r.next.buffer == p.buffer[1..] && r.next.stream == p.stream
    ensures p.buffer == [] ==>
              && r.result == ReadChar(p.stream).value
              && r.next.buffer == []
              && r.next.stream == p.stream.Skip(ReadChar(p.stream).used)
  {
    var q := ResetPeek(p);
    var t := TakeNext(q.stream, q.buffer);
    Step(t.result, MultiPeekStream(t.stream, t.buffer, 0))
  }

  // ---------------------------------------------------------------------
  // Peeks interleaved with reads

  /** A call on the single-peek buffer. */
  datatype SingleCall = SinglePeekCall | SingleReadCall

  /** A call on the multi-peek buffer. */
  datatype MultiCall = MultiPeekCall | ResetPeekCall | MultiReadCall

  function SingleReadCount(calls: seq<SingleCall>): nat {
    if calls == [] then 0
    else (if calls[0] == SingleReadCall then 1 else 0) + SingleReadCount(calls[1..])
  }

  function MultiReadCount(calls: seq<MultiCall>): nat {
    if calls == [] then 0
    else (if calls[0] == MultiReadCall then 1 else 0) + MultiReadCount(calls[1..])
  }

  /** The results of `k` reads in a row on the single-peek buffer. */
  function SingleReads(p: SinglePeekStream, k: nat): (rs: seq<CharResult>)
    ensures |rs| == k
    decreases k
  {
    if k == 0 then [] else
      var r := SingleRead(p);
      [r.result] + SingleReads(r.next, k - 1)
  }

  /** The results the reads among `calls` return, peeks interleaved. */
  function RunSingle(p: SinglePeekStream, calls: seq<SingleCall>): (rs: seq<CharResult>)
    ensures |rs| == SingleReadCount(calls)
    decreases |calls|
  {
    if calls == [] then []
    else
      match calls[0]
      case SinglePeekCall => RunSingle(SinglePeek(p).next, calls[1..])
      case SingleReadCall =>
        var r := SingleRead(p);
        [r.result] + RunSingle(r.next, calls[1..])
  }

  /** A single-peek `peek` changes nothing that any number of later reads
      return. */
  lemma SinglePeekThenReads(p: SinglePeekStream, k: nat)
    requires p.Valid()
    ensures SingleReads(SinglePeek(p).next, k) == SingleReads(p, k)
  {
    if k > 0 {
      var q := SinglePeek(p).next;
      SinglePeekThenRead(p);
      assert SingleReads(q, k) == [SingleRead(q).result] + SingleReads(SingleRead(q).next, k - 1);
      assert SingleReads(p, k) == [SingleRead(p).result] + SingleReads(SingleRead(p).next, k - 1);
    }
  }

  /** Peeks interleaved anywhere among single-peek reads change nothing the
      reads return. */
  lemma {:induction false} SingleInterleaving(p: SinglePeekStream, calls: seq<SingleCall>)
    requires p.Valid()
    ensures RunSingle(p, calls) == SingleReads(p, SingleReadCount(calls))
    decreases |calls|
  {
    if calls != [] {
      var n := SingleReadCount(calls[1..]);
      match calls[0]
      case SinglePeekCall =>
        var q := SinglePeek(p).next;
        assert RunSingle(p, calls) == RunSingle(q, calls[1..]);
        assert SingleReadCount(calls) == n;
        SingleInterleaving(q, calls[1..]);
        SinglePeekThenReads(p, n);
      case SingleReadCall =>
        var r := SingleRead(p);
        assert RunSingle(p, calls) == [r.result] + RunSingle(r.next, calls[1..]);
        assert SingleReadCount(calls) == n + 1;
        assert SingleReads(p, n + 1) == [r.result] + SingleReads(r.next, n);
        SingleInterleaving(r.next, calls[1..]);
    }
  }

  /** The results of `k` reads in a row on the multi-peek buffer. */
  function MultiReads(p: MultiPeekStream, k: nat): (rs: seq<CharResult>)
    ensures |rs| == k
    decreases k
  {
    if k == 0 then [] else
      var r := MultiRead(p);
      [r.result] + MultiReads(r.next, k - 1)
  }

  /** The results the reads among `calls` return, peeks and cursor resets
      interleaved. */
  function RunMulti(p: MultiPeekStream, calls: seq<MultiCall>): (rs: seq<CharResult>)
    requires p.Valid()
    ensures |rs| == MultiReadCount(calls)
    decreases |calls|
  {
    if calls == [] then []
    else
      match calls[0]
      case MultiPeekCall => RunMulti(MultiPeek(p).next, calls[1..])
      case ResetPeekCall => RunMulti(ResetPeek(p), calls[1..])
      case MultiReadCall =>
        var r := MultiRead(p);
        [r.result] + RunMulti(r.next, calls[1..])
  }

  /** Reads do not look at the cursor. */
  lemma CursorIrrelevant(p: MultiPeekStream, position: nat, k: nat)
    ensures MultiReads(p.(position := position), k) == MultiReads(p, k)
  {
    if k > 0 {
      assert MultiRead(p.(position := position)) == MultiRead(p);
    }
  }

  /** Queuing the next fresh result ahead of time changes no read. */
  lemma {:induction false} QueueAhead(s: CharStream, buffer: seq<CharResult>, k: nat)
    ensures var r := ReadChar(s);
            MultiReads(MultiPeekStream(s.Skip(r.used), buffer + [r.value], 0), k)
            == MultiReads(MultiPeekStream(s, buffer, 0), k)
    decreases k
  {
    var r := ReadChar(s);
    var ahead := MultiPeekStream(s.Skip(r.used), buffer + [r.value], 0);
    var plain := MultiPeekStream(s, buffer, 0);
    if k > 0 {
      if buffer == [] {
        var after := MultiPeekStream(s.Skip(r.used), [], 0);
        assert MultiRead(plain) == Step(r.value, after);
        assert MultiRead(ahead) == Step(r.value, after);
        assert MultiReads(ahead, k) == [r.value] + MultiReads(after, k - 1);
        assert MultiReads(plain, k) == [r.value] + MultiReads(after, k - 1);
      } else {
        assert (buffer + [r.value])[1..] == buffer[1..] + [r.value];
        QueueAhead(s, buffer[1..], k - 1);
        assert MultiRead(ahead).next == MultiPeekStream(s.Skip(r.used), buffer[1..] + [r.value], 0);
        assert MultiRead(plain).next == MultiPeekStream(s, buffer[1..], 0);
      }
    }
  }

  /** Once a read of the decoder reports `NoBytesRead` having used up the
      source, skipping that read changes no later read. */
  lemma {:induction false} SkipDrainedRead(s: CharStream, buffer: seq<CharResult>, k: nat)
    requires ReadChar(s).value == Err(NoBytesRead) && ReadChar(s).used == |s.src|
    ensures MultiReads(MultiPeekStream(s.Skip(ReadChar(s).used), buffer, 0), k)
            == MultiReads(MultiPeekStream(s, buffer, 0), k)
    decreases k
  {
    var drained := MultiPeekStream(s.Skip(ReadChar(s).used), buffer, 0);
    var plain := MultiPeekStream(s, buffer, 0);
    if k > 0 {
      if buffer == [] {
        assert drained.stream.src == [];
        assert MultiRead(drained) == MultiRead(plain);
      } else {
        SkipDrainedRead(s, buffer[1..], k - 1);
      }
    }
  }

  /** A single multi-peek `peek` changes nothing later reads return,
      provided the source's end is final. */
  lemma MultiPeekThenReads(p: MultiPeekStream, k: nat)
    requires p.Valid() && FinalEnd(p.stream.src)
    ensures MultiReads(MultiPeek(p).next, k) == MultiReads(p, k)
  {
    var q := MultiPeek(p).next;
    CursorIrrelevant(p, 0, k);
    CursorIrrelevant(q, 0, k);
    if p.position == |p.buffer| {
      var r := ReadChar(p.stream);
      if r.value == Err(NoBytesRead) {
        NoBytesReadDrains(p.stream);
        SkipDrainedRead(p.stream, p.buffer, k);
      } else {
        QueueAhead(p.stream, p.buffer, k);
      }
    }
  }

  /** Peeks and cursor resets interleaved anywhere among multi-peek reads
      change nothing the reads return, provided the source's end is final. */
  lemma {:induction false} MultiInterleaving(p: MultiPeekStream, calls: seq<MultiCall>)
    requires p.Valid() && FinalEnd(p.stream.src)
    ensures RunMulti(p, calls) == MultiReads(p, MultiReadCount(calls))
    decreases |calls|
  {
    if calls != [] {
      var n := MultiReadCount(calls[1..]);
      match calls[0]
      case MultiPeekCall =>
        var q := MultiPeek(p).next;
        assert FinalEnd(q.stream.src);
        MultiInterleaving(q, calls[1..]);
        MultiPeekThenReads(p, n);
      case ResetPeekCall =>
        MultiInterleaving(ResetPeek(p), calls[1..]);
        CursorIrrelevant(p, 0, n);
      case MultiReadCall =>
        var r := MultiRead(p);
        assert FinalEnd(r.next.stream.src);
        MultiInterleaving(r.next, calls[1..]);
    }
  }

  /** Where more input follows an end, a multi-peek `peek` that meets the
      end swallows the `NoBytesRead` a plain read would have returned. */
  lemma MultiPeekSwallowsEnd()
    ensures var p := MultiFromStream(CharStream([End, Byte(0x61)], false));
            && MultiReads(p, 2) == [Err(NoBytesRead), Ok('a')]
            && RunMulti(p, [MultiPeekCall, MultiReadCall]) == [Ok('a')]
  {
    var s := CharStream([End, Byte(0x61)], false);
    assert ReadChar(s) == Read(Err(NoBytesRead), 1);
    assert s.Skip(1).src == [Byte(0x61)];
    assert ReadChar(s.Skip(1)).value == Ok('a');
    var p := MultiFromStream(s);
    assert MultiRead(p).next.stream == s.Skip(1);
    assert MultiPeek(p).next.stream == s.Skip(1);
    assert [MultiPeekCall, MultiReadCall][1..] == [MultiReadCall];
  }

  /** How a read's result shows through a multi-peek `peek`: `NoBytesRead`
      shows as `None`, anything else as itself. */
  function Shown(r: CharResult): Option<CharResult> {
    if r == Err(NoBytesRead) then None else Some(r)
  }

  function ShownAll(rs: seq<CharResult>): (os: seq<Option<CharResult>>)
    ensures |os| == |rs|
  {
    if rs == [] then [] else [Shown(rs[0])] + ShownAll(rs[1..])
  }

  /** A read keeps the queue free of `NoBytesRead`: together with
      `MultiPeek`, every state reached from `MultiFromStream` has that queue. */
  lemma MultiReadNoEndQueued(p: MultiPeekStream)
    requires p.NoEndQueued()
    ensures MultiRead(p).next.NoEndQueued()
  {
  }

  /** What `k` successive multi-peek `peek`s show. */
  function MultiPeeks(p: MultiPeekStream, k: nat): (os: seq<Option<CharResult>>)
    requires p.Valid()
    ensures |os| == k
    decreases k
  {
    if k == 0 then [] else
      var r := MultiPeek(p);
      [r.item] + MultiPeeks(r.next, k - 1)
  }

  /** The multi-peek buffer after `k` successive `peek`s. */
  function PeekAhead(p: MultiPeekStream, k: nat): (q: MultiPeekStream)
    requires p.Valid()
    ensures q.Valid() && q.stream.lossy == p.stream.lossy
    ensures p.NoEndQueued() ==> q.NoEndQueued()
    ensures FinalEnd(p.stream.src) ==> FinalEnd(q.stream.src)
    decreases k
  {
    if k == 0 then p else PeekAhead(MultiPeek(p).next, k - 1)
  }

  /** Successive peeks show, in order, what successive reads would return
      once the queued results before the cursor were gone. */
  lemma {:induction false} PeeksShowReads(p: MultiPeekStream, k: nat)
    requires p.Valid() && p.NoEndQueued()
    ensures MultiPeeks(p, k)
            == ShownAll(MultiReads(MultiPeekStream(p.stream, p.buffer[p.position..], 0), k))
    decreases k
  {
    if k > 0 {
      var q := MultiPeek(p).next;
      var ahead := MultiPeekStream(p.stream, p.buffer[p.position..], 0);
      var rs := MultiReads(ahead, k);
      PeeksShowReads(q, k - 1);
      assert MultiPeeks(p, k) == [MultiPeek(p).item] + MultiPeeks(q, k - 1);
      assert rs == [MultiRead(ahead).result] + MultiReads(MultiRead(ahead).next, k - 1);
      assert ShownAll(rs) == [Shown(rs[0])] + ShownAll(MultiReads(MultiRead(ahead).next, k - 1));
      if p.position < |p.buffer| {
        assert p.buffer[p.position..][1..] == q.buffer[q.position..];
        assert MultiRead(ahead).next == MultiPeekStream(q.stream, q.buffer[q.position..], 0);
      } else {
        assert p.buffer[p.position..] == [];
        assert q.buffer[q.position..] == [];
        assert MultiRead(ahead).next == MultiPeekStream(q.stream, q.buffer[q.position..], 0);
      }
    }
  }

  /** Peeks run ahead change nothing later reads return, provided the
      source's end is final. */
  lemma {:induction false} PeekAheadReads(p: MultiPeekStream, j: nat, k: nat)
    requires p.Valid() && FinalEnd(p.stream.src)
    ensures MultiReads(PeekAhead(p, j), k) == MultiReads(p, k)
    decreases j
  {
    if j == 0 {
      assert PeekAhead(p, j) == p;
    } else {
      var q := MultiPeek(p).next;
      assert PeekAhead(p, j) == PeekAhead(q, j - 1);
      PeekAheadReads(q, j - 1, k);
      MultiPeekThenReads(p, k);
    }
  }

  /** `peek` `k` times, `reset_peek`, `peek` `k` times again: the second
      round shows what the first showed, provided the source's end is final.
      Both show what `k` reads would return. */
  lemma PeekReplay(p: MultiPeekStream, k: nat)
    requires p.Valid() && p.NoEndQueued() && FinalEnd(p.stream.src)
    ensures MultiPeeks(ResetPeek(PeekAhead(ResetPeek(p), k)), k) == MultiPeeks(ResetPeek(p), k)
    ensures MultiPeeks(ResetPeek(p), k) == ShownAll(MultiReads(p, k))
  {
    var p0 := ResetPeek(p);
    var q0 := ResetPeek(PeekAhead(p0, k));
    PeeksShowReads(p0, k);
    PeeksShowReads(q0, k);
    assert p0.buffer[0..] == p0.buffer;
    assert q0.buffer[0..] == q0.buffer;
    assert MultiPeekStream(p0.stream, p0.buffer[0..], 0) == p0;
    assert MultiPeekStream(q0.stream, q0.buffer[0..], 0) == q0;
    CursorIrrelevant(p, 0, k);
    CursorIrrelevant(PeekAhead(p0, k), 0, k);
    PeekAheadReads(p0, k, k);
  }
}

=== FILE: utf8.dfy ===
/**
 UTF-8 as the decoder relies on it: the well-formed byte sequences of
 section 4 of RFC 3629, the bit layout of section 3, and the two ways the
 standard library turns bytes into text -- strict conversion, which refuses
 anything ill-formed, and lossy conversion, which substitutes one U+FFFD for
 each maximal subpart of an ill-formed sequence (section 3.9 of the Unicode
 Standard).
 */
module Utf8 {

  import opened Wrappers

  newtype u8 = x: int | 0 <= x < 256

  /** U+FFFD REPLACEMENT CHARACTER */
  const Replacement: char := '\U{FFFD}'

  /** Length of the well-formed sequence that `lead` starts, or 0 when no
      well-formed sequence starts with it (0x80-0xC1 and 0xF5-0xFF). */
  function SequenceLength(lead: u8): (n: nat)
    ensures n <= 4
  {
    if lead <= 0x7F then 1
    else if 0xC2 <= lead <= 0xDF then 2
    else if 0xE0 <= lead <= 0xEF then 3
    else if 0xF0 <= lead <= 0xF4 then 4
    else 0
  }

  /** UTF8-tail of RFC 3629: 0x80-0xBF */
  predicate IsTail(b: u8) {
    0x80 <= b <= 0xBF
  }

  /** The range RFC 3629 allows for the byte after `lead`: narrower than a
      tail after E0 and F0 (no overlong forms), ED (no surrogates) and F4
      (nothing above U+10FFFF). */
  predicate SecondOk(lead: u8, b: u8) {
    if lead == 0xE0 then 0xA0 <= b <= 0xBF
    else if lead == 0xED then 0x80 <= b <= 0x9F
    else if lead == 0xF0 then 0x90 <= b <= 0xBF
    else if lead == 0xF4 then 0x80 <= b <= 0x8F
    else IsTail(b)
  }

  /** `p` is an initial subsequence of some well-formed UTF8-char. */
  predicate WellFormedPrefix(p: seq<u8>) {
    && 1 <= |p|
    && |p| <= SequenceLength(p[0])
    && (|p| >= 2 ==> SecondOk(p[0], p[1]))
    && forall i | 2 <= i < |p| :: IsTail(p[i])
  }

  /** `p` is exactly one UTF8-char of RFC 3629 section 4. */
  predicate WellFormedChar(p: seq<u8>) {
    WellFormedPrefix(p) && |p| == SequenceLength(p[0])
  }

  /** The continuation byte carrying the low six bits of `v`. */
  function Tail(v: nat): (b: u8)
    ensures IsTail(b)
  {
    (0x80 + v % 64) as u8
  }

  /** The encoding of a scalar value (RFC 3629 section 3). */
  function Encode(c: char): (bs: seq<u8>)
    ensures WellFormedChar(bs)
  {
    var v := c as int;
    if v < 0x80 then
      [v as u8]
    else if v < 0x800 then
      [(0xC0 + v / 64) as u8, Tail(v)]
    else if v < 0x1_0000 then
      assert v < 0xD800 || 0xE000 <= v;
      [(0xE0 + v / 64 / 64) as u8, Tail(v / 64), Tail(v)]
    else
      [(0xF0 + v / 64 / 64 / 64) as u8, Tail(v / 64 / 64), Tail(v / 64), Tail(v)]
  }

  /** Six more low bits appended to `high`: the step by which a decoder
      folds in one continuation byte. */
  lemma Shift(high: int, low: int)
    requires 0 <= high && 0 <= low < 64
    ensures (high * 64 + low) / 64 == high
    ensures (high * 64 + low) % 64 == low
  {
  }

  /** The scalar value a well-formed UTF8-char encodes. */
  function DecodeChar(p: seq<u8>): (c: char)
    requires WellFormedChar(p)
    ensures Encode(c) == p
  {
    if |p| == 1 then p[0] as int as char
    else if |p| == 2 then DecodeTwo(p)
    else if |p| == 3 then DecodeThree(p)
    else DecodeFour(p)
  }

  /** `DecodeChar` for a two-byte sequence. */
  function DecodeTwo(p: seq<u8>): (c: char)
    requires WellFormedChar(p) && |p| == 2
    ensures Encode(c) == p
  {
    Shift(p[0] as int - 0xC0, p[1] as int - 0x80);
    ((p[0] as int - 0xC0) * 64 + (p[1] as int - 0x80)) as char
  }

  /** `DecodeChar` for a three-byte sequence. */
  function DecodeThree(p: seq<u8>): (c: char)
    requires WellFormedChar(p) && |p| == 3
    ensures Encode(c) == p
  {
    var q := (p[0] as int - 0xE0) * 64 + (p[1] as int - 0x80);
    Shift(p[0] as int - 0xE0, p[1] as int - 0x80);
    Shift(q, p[2] as int - 0x80);
    (q * 64 + (p[2] as int - 0x80)) as char
  }

  /** `DecodeChar` for a four-byte sequence. */
  function DecodeFour(p: seq<u8>): (c: char)
    requires WellFormedChar(p) && |p| == 4
    ensures Encode(c) == p
  {
    var q2 := (p[0] as int - 0xF0) * 64 + (p[1] as int - 0x80);
    var q1 := q2 * 64 + (p[2] as int - 0x80);
    Shift(p[0] as int - 0xF0, p[1] as int - 0x80);
    Shift(q2, p[2] as int - 0x80);
    Shift(q1, p[3] as int - 0x80);
    (q1 * 64 + (p[3] as int - 0x80)) as char
  }

  /** The encoding of a string: the encodings of its characters, in order. */
  function EncodeString(s: string): seq<u8> {
    if s == [] then [] else Encode(s[0]) + EncodeString(s[1..])
  }

  /** Encoding distributes over concatenation: a text is encoded one
      character at a time. */
  lemma {:induction false} EncodeStringAppend(s: string, t: string)
    ensures EncodeString(s + t) == EncodeString(s) + EncodeString(t)
  {
    if s != [] {
      assert (s + t)[0] == s[0] && (s + t)[1..] == s[1..] + t;
      EncodeStringAppend(s[1..], t);
    } else {
      assert s + t == t;
    }
  }

  /** The decoder reads a scalar value back out of its own encoding. */
  lemma DecodeEncode(c: char)
    ensures DecodeChar(Encode(c)) == c
  {
  }

  /** The largest n <= k for which bs[..n] is an initial subsequence of a
      well-formed character; 0 when there is none. */
  function LongestPrefix(bs: seq<u8>, k: nat): (n: nat)
    requires k <= |bs|
    ensures n <= k
    ensures n == 0 || (n <= |bs| && WellFormedPrefix(bs[..n]))
    ensures forall j | n < j <= k :: !WellFormedPrefix(bs[..j])
    decreases k
  {
    if k == 0 || WellFormedPrefix(bs[..k]) then k else LongestPrefix(bs, k - 1)
  }

  /** One unit of conversion at the front of a byte string: a character
      encoded by its first `len` bytes, or an ill-formed maximal subpart of
      `len` bytes that stands for one U+FFFD. */
  datatype Chunk = Valid(c: char, len: nat) | Invalid(len: nat)

  /** The chunk at the front of `bs`. An ill-formed chunk is a maximal
      subpart: the longest prefix that could still begin a well-formed
      character, or a single byte when not even the first byte can. */
  function NextChunk(bs: seq<u8>): (ch: Chunk)
    requires |bs| > 0
    ensures 1 <= ch.len <= |bs| && ch.len <= 4
    ensures ch.Valid? <==> WellFormedChar(bs[..ch.len])
    ensures ch.Valid? ==> Encode(ch.c) == bs[..ch.len]
    ensures ch.len == 1 || WellFormedPrefix(bs[..ch.len])
    ensures forall j | ch.len < j <= |bs| :: !WellFormedPrefix(bs[..j])
  {
    var k := LongestPrefix(bs, if |bs| < 4 then |bs| else 4);
    assert forall j | 4 < j <= |bs| :: !WellFormedPrefix(bs[..j]);
    if k > 0 && WellFormedChar(bs[..k]) then Valid(DecodeChar(bs[..k]), k)
    else if k == 0 then Invalid(1)
    else Invalid(k)
  }

  /** Strict conversion (`String::from_utf8`): the text, when the whole of
      `bs` is well-formed. */
  function DecodeStrict(bs: seq<u8>): (r: Option<string>)
    ensures r.Some? ==> EncodeString(r.value) == bs
    decreases |bs|
  {
    if bs == [] then Some([])
    else
      match NextChunk(bs)
      case Valid(c, n) =>
        (match DecodeStrict(bs[n..])
         case Some(t) => StrictStep(bs, c, n, t); Some([c] + t)
         case None => None)
      case Invalid(_) => None
  }

  /** One step of strict conversion: a well-formed character at the front
      followed by the encoding of the rest is the encoding of both. */
  lemma StrictStep(bs: seq<u8>, c: char, n: nat, t: string)
    requires |bs| > 0 && NextChunk(bs) == Valid(c, n)
    requires EncodeString(t) == bs[n..]
    ensures EncodeString([c] + t) == bs
  {
    assert ([c] + t)[0] == c && ([c] + t)[1..] == t;
    assert bs == bs[..n] + bs[n..];
  }

  /** Lossy conversion (`String::from_utf8_lossy`): well-formed characters
      are kept and each maximal subpart becomes one U+FFFD. */
  function DecodeLossy(bs: seq<u8>): (s: string)
    ensures |s| <= |bs|
    ensures |bs| > 0 ==> |s| > 0
    decreases |bs|
  {
    if bs == [] then []
    else
      match NextChunk(bs)
      case Valid(c, n) => [c] + DecodeLossy(bs[n..])
      case Invalid(n) => [Replacement] + DecodeLossy(bs[n..])
  }

  /** Over an encoding followed by anything, the first chunk is exactly
      that encoding. */
  lemma ChunkOfEncoding(c: char, rest: seq<u8>)
    ensures NextChunk(Encode(c) + rest) == Valid(c, |Encode(c)|)
  {
    var bs := Encode(c) + rest;
    var e := Encode(c);
    assert bs[..|e|] == e;
    forall j | |e| < j <= |bs|
      ensures !WellFormedPrefix(bs[..j])
    {
      assert bs[..j][0] == e[0];
    }
    DecodeEncode(c);
  }

  /** Strict conversion accepts every encoded string and gives it back. */
  lemma {:induction false} DecodeStrictEncode(s: string)
    ensures DecodeStrict(EncodeString(s)) == Some(s)
  {
    if s != [] {
      var c, t := s[0], s[1..];
      var bs := EncodeString(s);
      assert bs == Encode(c) + EncodeString(t);
      ChunkOfEncoding(c, EncodeString(t));
      assert bs[|Encode(c)|..] == EncodeString(t);
      DecodeStrictEncode(t);
      assert DecodeStrict(bs) == Some([c] + t);
      assert [c] + t == s;
    }
  }

  /** Lossy conversion agrees with strict conversion on well-formed input. */
  lemma {:induction false} LossyExtendsStrict(bs: seq<u8>)
    requires DecodeStrict(bs).Some?
    ensures DecodeLossy(bs) == DecodeStrict(bs).value
    decreases |bs|
  {
    if bs != [] {
      var n := NextChunk(bs).len;
      LossyExtendsStrict(bs[n..]);
    }
  }

  /** Lossy conversion of an encoded character followed by anything:
      that character, then the conversion of what follows. */
  lemma LossyAfterChar(c: char, after: seq<u8>)
    ensures DecodeLossy(Encode(c) + after) == [c] + DecodeLossy(after)
  {
    var bs := Encode(c) + after;
    ChunkOfEncoding(c, after);
    assert bs[|Encode(c)|..] == after;
  }

  /** One step of lossy conversion over an encoded text: its first
      character, then the conversion of the rest. */
  lemma LossyEncodedStep(s: string, rest: seq<u8>)
    requires s != []
    ensures DecodeLossy(EncodeString(s) + rest) == [s[0]] + DecodeLossy(EncodeString(s[1..]) + rest)
  {
    var after := EncodeString(s[1..]) + rest;
    assert EncodeString(s) + rest == Encode(s[0]) + after;
    LossyAfterChar(s[0], after);
  }

  /** Regrouping a concatenation that starts with one element. */
  lemma ConsAppend<T>(c: T, t: seq<T>, d: seq<T>)
    ensures [c] + (t + d) == ([c] + t) + d
  {
  }

  /** Lossy conversion passes an encoded text through unchanged and
      carries on after it: the text is not disturbed by what follows. */
  lemma {:induction false} LossyOfEncoding(s: string, rest: seq<u8>)
    ensures DecodeLossy(EncodeString(s) + rest) == s + DecodeLossy(rest)
  {
    if s == [] {
      assert EncodeString(s) + rest == rest;
      assert s + DecodeLossy(rest) == DecodeLossy(rest);
    } else {
      var c, t := s[0], s[1..];
      var d := DecodeLossy(rest);
      LossyEncodedStep(s, rest);
      LossyOfEncoding(t, rest);
      ConsAppend(c, t, d);
      assert s == [c] + t;
    }
  }

  /** Input that strict conversion refuses shows at least one U+FFFD once
      converted lossily. */
  lemma {:induction false} LossyMarksIllFormed(bs: seq<u8>)
    requires DecodeStrict(bs).None?
    ensures Replacement in DecodeLossy(bs)
    decreases |bs|
  {
    match NextChunk(bs)
    case Invalid(n) =>
      assert DecodeLossy(bs)[0] == Replacement;
    case Valid(c, n) =>
      LossyMarksIllFormed(bs[n..]);
      assert DecodeLossy(bs) == [c] + DecodeLossy(bs[n..]);
  }

  /** A lone well-formed character converts to itself, strictly or lossily. */
  lemma SingleCharacter(bs: seq<u8>)
    requires WellFormedChar(bs)
    ensures DecodeStrict(bs) == Some([DecodeChar(bs)])
    ensures DecodeLossy(bs) == [DecodeChar(bs)]
  {
    var c := DecodeChar(bs);
    ChunkOfEncoding(c, []);
    assert Encode(c) + [] == bs;
    assert bs[|bs|..] == [];
    assert DecodeStrict(bs[|bs|..]) == Some([]);
    assert [c] + [] == [c];
  }

  /** E2 41 42: E2 announces three bytes but 41 is no continuation, so the
      maximal subpart is E2 alone; one U+FFFD, then 'A' and 'B'. */
  lemma LossyE2AB()
    ensures DecodeLossy([0xE2, 0x41, 0x42]) == [Replacement, 'A', 'B']
  {
    var bytes: seq<u8> := [0xE2, 0x41, 0x42];
    assert !WellFormedPrefix(bytes[..2]);
    assert !WellFormedPrefix(bytes[..3]);
    assert bytes[..1] == [0xE2];
    assert NextChunk(bytes) == Invalid(1);
    assert Encode('A') == [0x41];
    assert bytes[1..] == Encode('A') + [0x42];
    ChunkOfEncoding('A', [0x42]);
    assert Encode('B') == [0x42];
    assert bytes[2..] == Encode('B') + [];
    ChunkOfEncoding('B', []);
    assert bytes[1..][1..] == bytes[2..];
    assert bytes[2..][1..] == [];
    assert DecodeLossy(bytes[2..]) == ['B'];
    assert DecodeLossy(bytes[1..]) == ['A', 'B'];
  }
}

=== FILE: wrappers.dfy ===
/** Optional values, shared by every module of the model. */
module Wrappers {

  datatype Option<+T> = None | Some(value: T)
}
